=== FILE: README.md ===
# Video upload dialog and static server — a Dafny model

This project models the two parts of the front end that carry behaviour worth
stating:

- **The upload dialog** (`components/UploadVideoDialog.tsx`). `validateFile` checks a
  chosen file: first the 100 MiB size limit, then an exact match against four video
  MIME types. The dialog holds three pieces of state: `selectedFile`, `error` and
  `isUploading`. Four events drive it: a file selection, Submit, Cancel, and the
  arrival of the upload request's outcome. `uploadFile` and `handleSubmit` reduce
  every outcome to one of two results. Either the success callback runs, the
  selection is cleared and the dialog closes, or exactly one error message is shown.
- **The static file server** (`serve.js`). Its request handler strips the query,
  maps `/` to `/index.html`, falls back to `<path>.html`, picks the Content-Type from
  the lower-cased extension, and marks HTML as uncached. A missing file is answered
  with `index.html`, as a single-page application expects.

Modules:

- `Wrappers` (`wrappers.dfy`): `Option`.
- `Decimal` (`decimal.dfy`): integer rendering as JavaScript prints it, and the
  `toFixed(2)` rendering of a count of hundredths. Each rendering is proved to be
  inverted by its parser.
- `Validation` (`validation.dfy`): `validateFile`, its error message, and the effect
  on the error text.
- `UploadOutcome` (`outcome.dfy`): the outcome of `fetch` as a datatype, and how the
  `try`/`catch` chain of `uploadFile` and `handleSubmit` turns it into success or a
  message.
- `UploadSession` (`session.dfy`): the dialog as a transition system. `Step` handles
  one event; `Run` handles a sequence of events.
- `StaticServer` (`server.dfy`): the request handler as a pure function. The
  filesystem is a snapshot map `map<string, Entry>`.

Modelling choices:

- **Async submit.** `handleSubmit` is split at its `await`. The `Submit` event runs
  it up to the request and records the file the pending call captured. The `OutcomeArrived`
  event runs the rest.
- **Calls out of the component.** The request, `onUploadSuccess` and `onClose` are
  returned as a sequence of effects.
- **Upload outcome.** It is `Responded(status, statusText, body)` or
  `Rejected(thrown)`. `response.ok` is derived from the status (200–299). A thrown
  value is a `TypeError`, another `Error`, or a non-Error value with its truthiness.
  Chromium rejects a failed connection with `TypeError("Failed to fetch")`, which
  gets the fixed network message; other browsers' `TypeError` messages (Firefox's
  "NetworkError when attempting to fetch resource.", Safari's "Load failed") do not
  match that test and are shown verbatim.
- **Error body fields.** `error` and `message` are either strings or other JSON
  values. A non-string value carries its truthiness and its `String(value)`
  rendering.
- **Size in the message.** The message shows `(size / (1024*1024)).toFixed(2)`. The
  model computes this exactly as the nearest hundredth, with ties rounding up. That
  value is `(100*size + 2^19) div 2^20`. The result equals what `toFixed` prints for
  every size a `File` can have (below 2^53).
- **Server filesystem.** A map from paths to entries. An entry is a readable file,
  a directory, or an unreadable file. Looking a path up finds its entry, or
  nothing (ENOENT), or fails with ENOTDIR when a proper prefix followed by a slash
  is not a directory (`/app.js/` when `/app.js` is a file). A directory may also be
  named with trailing slashes. `existsSync` is true exactly when an entry is found,
  and only a file can be read. Joining a path with the server's directory is taken
  as the identity on request paths. The map is taken to be a well-formed tree
  (`StaticServer.Tree`): every directory on the way to a stored path is stored as a
  directory. A map that stores `/assets/app.js` without `/assets` would make the
  lookup miss `/assets`, where the real server finds a directory.

Where the code behaves differently from what the dialog's purpose suggests, the model follows the code:

- **Cancel.** It only calls `onClose`. The selected file and the error survive
  (`components/UploadVideoDialog.tsx:198-205`). Cancel is also disabled while
  uploading (line 201): once a request is in flight the dialog cannot be dismissed
  from its own buttons until the outcome arrives.
- **Re-validation on submit.** A stored file was accepted when it was selected, and
  files are immutable, so re-validating it at submit cannot fail from any reachable
  state. This covers both the check in `handleSubmit` and the size check in
  `uploadFile` (`UploadSession.EnabledSubmitSendsRequest`). The size check is still
  modelled as written, in `UploadSession.BeginUpload`. If it ever fired, it would
  clear the selection and close the dialog without sending a request, because it
  returns instead of throwing.
- **Falsy non-Error throw.** The message "Upload failed. Please try again." set in
  `uploadFile` is overwritten by "An unexpected error occurred. Please try again."
  (lines 146-147).
- **2xx response with an unparseable body.** It fails, and the message is that of
  the `SyntaxError` thrown by `response.json()`.
- **Empty error messages.** An error message is not always non-empty. `{"error": []}`
  is truthy but prints as the empty string, and an `Error` may have an empty message.
  The model keeps whatever string the code would show.
- **Selecting during an upload.** The file input is never disabled, so a file can be
  selected while an upload is pending. If that upload then succeeds, the callback
  still receives the submitted file, and the new selection is cleared as well.

## Model

| member | source | states |
|---|---|---|
| Validation.Validate | components/UploadVideoDialog.tsx:17-35 | a file is accepted iff its size is at most 104857600 bytes and its type is one of the four video types; an oversize file gets the size message whatever its type; otherwise a rejection carries the type message; a rejection reason is never empty |
| Validation.ErrorAfterValidation | components/UploadVideoDialog.tsx:19-34 | after validation the error text is empty exactly when the file is accepted, and otherwise it is the rejection reason; the prior text is overwritten on every path (the parameter is never read) |
| Validation.OversizeMessageReportsSize | components/UploadVideoDialog.tsx:22-25 | the oversize message carries the file's size in MiB, readable back as the nearest hundredth (ties up) |
| Validation.MiBRounding | components/UploadVideoDialog.tsx:23 | the printed hundredths lie within half a hundredth of size / 2^20, ties rounding up |
| Validation.ReportedHundredthsRoundTrip | components/UploadVideoDialog.tsx:23 | the figure spliced into the size message reads back as the value printed |
| Validation.SizeBoundary | components/UploadVideoDialog.tsx:10-25 | exactly 100 MiB passes the size check, one byte more is rejected with the size message |
| Decimal.NatToDecimal | components/UploadVideoDialog.tsx:81 | the rendering of a status code is a non-empty digit string with a leading zero only for zero |
| Decimal.DecimalRoundTrip | components/UploadVideoDialog.tsx:81 | reading back a rendered number gives the number |
| Decimal.CanonicalDigitsRoundTrip | components/UploadVideoDialog.tsx:81 | every digit string without a leading zero is the rendering of its value |
| Decimal.Fixed2RoundTrip | components/UploadVideoDialog.tsx:23 | the two-decimal rendering reads back as the count of hundredths it came from |
| UploadOutcome.ServerErrorMessage | components/UploadVideoDialog.tsx:79-90 | for a non-2xx response the message is body.error if truthy, else body.message if truthy, else the status line; an unparseable body gives the status line |
| UploadOutcome.ThrownBy | components/UploadVideoDialog.tsx:79-99 | nothing escapes the attempt exactly when the response is ok and its body parses |
| UploadOutcome.Settle | components/UploadVideoDialog.tsx:79-148 | an attempt succeeds exactly when the response is ok and its body parses |
| UploadOutcome.ServerErrorSettlement | components/UploadVideoDialog.tsx:79-112 | a non-2xx response fails with the precedence message, and with the status line when the body does not parse |
| UploadOutcome.UnparseableSuccessBody | components/UploadVideoDialog.tsx:93-109 | a 2xx response whose body does not parse fails with the parser's own message |
| UploadOutcome.ThrownSettlement | components/UploadVideoDialog.tsx:104-148 | a "Failed to fetch" TypeError gives the fixed network message, any other Error its own message, a truthy non-Error "Upload failed. Please try again.", a falsy one "An unexpected error occurred. Please try again." |
| UploadOutcome.StatusMessageNamesStatus | components/UploadVideoDialog.tsx:81 | the status code can be read back from the status line |
| UploadOutcome.DiskFullExample | components/UploadVideoDialog.tsx:79-90 | a 500 with body error "disk full" fails with exactly "disk full" |
| UploadSession.HandleFileSelect | components/UploadVideoDialog.tsx:37-44 | an empty selection changes nothing; an accepted first file becomes the selection with the error cleared; a rejected one only sets its non-empty reason and leaves any earlier selection in place; no request is made |
| UploadSession.BeginUpload | components/UploadVideoDialog.tsx:50-150 | the size re-check, as written, clears the selection and closes without a request; otherwise exactly one request for the file is sent |
| UploadSession.HandleSubmit | components/UploadVideoDialog.tsx:117-137 | with no file only the "Please select a file to upload" error is set and no request is made; a rejected file gets its reason, the flag ends false and no request is made; an accepted file clears the error, raises the flag and sends one request |
| UploadSession.HandleOutcome | components/UploadVideoDialog.tsx:93-151 | the flag ends false; the callback gets the submitted file exactly once iff the response is ok, parses and a callback was given; success clears the selection and closes; failure keeps the selection, does not close and shows the outcome's message |
| UploadSession.Step | components/UploadVideoDialog.tsx:197-213 | Submit does nothing without a selected file or while uploading, so the "Please select a file to upload" branch is unreachable from the form; while uploading Cancel does nothing, otherwise it only closes; every step preserves the state invariant |
| UploadSession.Run | components/UploadVideoDialog.tsx:37-213 | a run of events preserves the invariant: only accepted files are stored or in flight, and the flag is raised exactly while a request is pending |
| UploadSession.ReachableStatesConsistent | components/UploadVideoDialog.tsx:13-15 | every state reachable from the initial one satisfies the invariant |
| UploadSession.EnabledSubmitSendsRequest | components/UploadVideoDialog.tsx:127-137 | from a reachable state an enabled submit always sends one request: the re-validation and the size re-check cannot fail there |
| UploadSession.StepRequests | components/UploadVideoDialog.tsx:127-151 | one step sends at most one request, only when none is pending, and then raises the flag |
| UploadSession.RequestsBoundedBySettles | components/UploadVideoDialog.tsx:117-151 | over any run, requests sent plus the one pending at the start equal the outcomes that arrived while a request was awaited plus the one pending at the end; so requests never outnumber awaited outcomes by more than one, and by none when a request was already pending; ignored outcomes do not count |
| UploadSession.DoubleSubmitSendsOnce | components/UploadVideoDialog.tsx:206-211 | two submits while the first is awaited send exactly one request |
| UploadSession.SubmitThenSettle | components/UploadVideoDialog.tsx:117-151 | a full attempt sends one request, then either calls back with that file, clears the selection and closes, or keeps the selection and shows the outcome's message; the flag ends false |
| StaticServer.StripQuery | serve.js:21 | the path is the longest prefix of the URL before the first '?' |
| StaticServer.QueryIgnored | serve.js:21 | appending a query never changes the response |
| StaticServer.RootDefault | serve.js:24-26 | only "/" is rewritten, to "/index.html" |
| StaticServer.LookUp | serve.js:32-45 | a path below a non-directory is ENOTDIR; otherwise a stored path is found with its entry; a path found without being stored is a directory whose path, trailing slashes dropped, is stored as a directory; ENOENT exactly when none of these holds, in particular for every unstored path without a trailing slash that lies below no file |
| StaticServer.ThroughNonDirectoryWitness | serve.js:32-45 | a path is below a non-directory exactly when some non-empty proper prefix followed by a slash is stored as a file |
| StaticServer.ResolveHtml | serve.js:32-37 | the path is kept if anything exists there, else `<path>.html` is used if it exists, else the path is kept |
| StaticServer.ExtName | serve.js:40 | the extension is empty or a dot followed by no dot and no slash, and it is empty when the last component has no dot |
| StaticServer.ExtNameIsSuffix | serve.js:40 | the extension is a suffix of the path with its trailing slashes dropped |
| StaticServer.LastSegmentIsSuffix | serve.js:40 | the last component is the suffix after the path's last slash |
| StaticServer.BaseExtensionOfSuffix | serve.js:40 | a component ending in a dot and a dotless tail has exactly that dot and tail as extension, except `..` |
| StaticServer.ExtNameOfAppended | serve.js:40 | appending a dot and a dotless, slash-free tail to a path not ending in a slash gives exactly that extension, unless the last component was `.` |
| StaticServer.HtmlFallbackExtension | serve.js:33-40 | a path not ending in a slash gets the extension ".html" once ".html" is appended |
| StaticServer.ToLower | serve.js:40 | lower-casing keeps the length, sends each upper-case ASCII letter to its lower-case counterpart (code point + 32) and changes nothing else |
| StaticServer.MimeTableSize | serve.js:8-17 | the Content-Type table has eight entries |
| StaticServer.ContentTypeDefaultsExactlyOffTable | serve.js:41 | the type is application/octet-stream exactly when the extension is not in the table, and text/html exactly for ".html" |
| StaticServer.ReadFile | serve.js:43-45 | a read is ENOENT exactly when the lookup finds nothing, fails (ENOTDIR) for a path below a non-directory, and succeeds, with the stored bytes, exactly for a stored file |
| StaticServer.FileResponse | serve.js:69-81 | a read file is answered 200 with its bytes, its Content-Type first, and the no-cache headers exactly for HTML |
| StaticServer.IndexFallback | serve.js:45-61 | the fallback is 200 uncached HTML with the index bytes when index.html is a file, else the 500 "Server error" |
| StaticServer.Handle | serve.js:19-83 | every response is a 200 carrying the bytes of some file, or the 500 "Server error"; a 200 starts with Content-Type and carries the no-cache headers exactly when the type is HTML; a read that fails other than with ENOENT (a directory, an unreadable file, ENOTDIR) is answered 500, and ENOENT is answered by the index fallback |
| StaticServer.ExistingFileServed | serve.js:69-81 | a found file is served 200 with its own bytes and table type; ".html" gets four headers, anything else only Content-Type |
| StaticServer.MissingFileFallsBackToIndex | serve.js:43-61 | a missing file is answered with index.html as uncached HTML, or 500 when index.html cannot be read |
| StaticServer.UnknownRouteServesIndex | serve.js:32-60 | a route stored neither as asked nor with `.html`, and below no file, is answered with the index page as uncached HTML |
| StaticServer.MissingHasNothingBelow | serve.js:32-45 | in a well-formed tree a path the lookup misses has no stored path below it |
| StaticServer.UnreadableEntryIsServerError | serve.js:32-66 | an existing entry that is not a readable file gives 500, even when `<path>.html` exists |
| StaticServer.PathThroughFileIsServerError | serve.js:32-66 | a request below a file exists neither as asked nor with `.html`, and its read fails with a code other than ENOENT: 500, not the index page |
| StaticServer.ScriptWithSlashIsServerError | serve.js:43-66 | `/app.js/` where `/app.js` is a file is answered 500 "Server error" |
| StaticServer.RootServesIndex | serve.js:21-26 | a request for "/" with any query serves index.html as uncached HTML |
| StaticServer.HtmlFileServed | serve.js:74-78 | a file reached with extension ".html" is served as uncached text/html |
| StaticServer.CleanUrlServesHtml | serve.js:32-41 | a clean URL whose page exists only as `<path>.html` is served from that file as uncached HTML |

## Left out

- Rendering, JSX, the `isOpen` prop and the parent's reaction to `onClose` are not modelled. Events are assumed to come from a rendered dialog.
- React batches state updates. Each handler's updates are applied in program order, last write wins, which gives the same final state.
- `fetch`, `FormData`, `credentials: 'include'` and the upload URL from `getApiUrl` are foreign calls. The request effect carries only the file. config/api.ts is not part of this model.
- JSON parsing itself is foreign. A body is either parsed into its `error` and `message` fields or fails with a message. A parsed body that is not an object has neither field. For `null` the code's own `catch` gives the same status line.
- A throwing `onUploadSuccess` is not modelled; the callback is assumed to return.
- The `console` logging in both files, `server.listen`, the port choice and the startup banner are left out. They produce no state or response.
- `accept="video/*"` on the file input is a browser-side filter and is left out. Validation alone decides.
- Validation.MiBHundredths: equals `toFixed(2)` only below 2^53 bytes, because sizes are unbounded naturals and a JavaScript `File` size is a double.
- StaticServer.ToLower: lowers ASCII letters only. None of the table's extensions, nor ".html", is affected by other characters' case mappings.
- StaticServer.Handle: does not model `path.join` normalisation (`..`, `.`, repeated slashes), path traversal, or the name of the server's own directory. It also ignores the race between `existsSync` and `readFile`. Request paths are used directly as filesystem keys.
- utils/suppressErrors.js, utils/messageFilter.js, utils/clerkConfig.js, utils/quickFix.js and utils/clerkWarningFix.js are not part of this model. They patch the global console and event listeners and have no product behaviour.

=== FILE: decimal.dfy ===
/**
 Decimal rendering of non-negative integers, as JavaScript prints them inside
 template strings, and the two-decimal rendering of `Number.prototype.toFixed(2)`
 for a value given as a whole number of hundredths. Each rendering comes with the
 parser that inverts it.
 */
module Decimal {
  import opened Wrappers

  predicate IsDigit(c: char) {
    '0' <= c <= '9'
  }

  predicate AllDigits(s: string) {
    forall i :: 0 <= i < |s| ==> IsDigit(s[i])
  }

  function DigitValue(c: char): (d: nat)
    requires IsDigit(c)
    ensures d < 10
  {
    c as int - '0' as int
  }

  function DigitChar(d: nat): (c: char)
    requires d < 10
    ensures IsDigit(c) && DigitValue(c) == d
  {
    ('0' as int + d) as char
  }

  /** The digits of `n`, most significant first, with no leading zero ("0" for zero). */
  function NatToDecimal(n: nat): (s: string)
    ensures |s| >= 1 && AllDigits(s)
    ensures s[0] == '0' <==> n == 0
    ensures n < 10 <==> |s| == 1
    decreases n
  {
    if n < 10 then [DigitChar(n)] else NatToDecimal(n / 10) + [DigitChar(n % 10)]
  }

  /** The number a string of digits denotes. */
  function DecimalValue(s: string): nat
    requires AllDigits(s)
  {
    if s == [] then 0 else 10 * DecimalValue(s[..|s| - 1]) + DigitValue(s[|s| - 1])
  }

  /** Reading back a rendered number gives the number. */
  lemma {:induction false} DecimalRoundTrip(n: nat)
    ensures DecimalValue(NatToDecimal(n)) == n
  {
    if n >= 10 {
      var s := NatToDecimal(n);
      assert s[..|s| - 1] == NatToDecimal(n / 10);
      DecimalRoundTrip(n / 10);
    }
  }

  lemma {:induction false} LeadingDigitIsPositive(s: string)
    requires |s| >= 1 && AllDigits(s) && s[0] != '0'
    ensures DecimalValue(s) >= 1
  {
    if |s| > 1 {
      LeadingDigitIsPositive(s[..|s| - 1]);
    }
  }

  /** Rendering the value of a canonical digit string (no leading zero) gives the string back. */
  lemma {:induction false} CanonicalDigitsRoundTrip(s: string)
    requires |s| >= 1 && AllDigits(s)
    requires |s| > 1 ==> s[0] != '0'
    ensures NatToDecimal(DecimalValue(s)) == s
  {
    if |s| > 1 {
      var init := s[..|s| - 1];
      LeadingDigitIsPositive(init);
      CanonicalDigitsRoundTrip(init);
      var v := DecimalValue(s);
      assert v / 10 == DecimalValue(init);
      assert v % 10 == DigitValue(s[|s| - 1]);
      assert s == init + [s[|s| - 1]];
    }
  }

  /**
   The text `toFixed(2)` produces for the number `hundredths / 100`: the integer
   part without leading zeros, a point, and exactly two fraction digits.
   */
  function Fixed2(hundredths: nat): string {
    NatToDecimal(hundredths / 100) + "." + [DigitChar(hundredths / 10 % 10), DigitChar(hundredths % 10)]
  }

  /** Reads text of the shape Fixed2 produces back as a count of hundredths. */
  function ParseFixed2(s: string): (r: Option<nat>)
    ensures r.Some? ==> |s| >= 4 && s[|s| - 3] == '.'
  {
    if |s| >= 4 && s[|s| - 3] == '.' && AllDigits(s[..|s| - 3]) && IsDigit(s[|s| - 2]) && IsDigit(s[|s| - 1])
    then Some(100 * DecimalValue(s[..|s| - 3]) + 10 * DigitValue(s[|s| - 2]) + DigitValue(s[|s| - 1]))
    else None
  }

  /** The three digit groups Fixed2 prints add back up to the number of hundredths. */
  lemma HundredthsDigits(h: nat)
    ensures 100 * (h / 100) + 10 * (h / 10 % 10) + h % 10 == h
  {
    var a, r := h / 100, h % 100;
    var t, u := r / 10, r % 10;
    assert h == 100 * a + 10 * t + u;
    assert h / 10 == 10 * a + t;
    assert h % 10 == u;
  }

  /** Reading back the two-decimal rendering gives the number of hundredths. */
  lemma Fixed2RoundTrip(hundredths: nat)
    ensures ParseFixed2(Fixed2(hundredths)) == Some(hundredths)
  {
    var h := hundredths;
    var s := Fixed2(h);
    assert s[..|s| - 3] == NatToDecimal(h / 100);
    DecimalRoundTrip(h / 100);
    HundredthsDigits(h);
  }
}

=== FILE: outcome.dfy ===
/**
 How `uploadFile` and `handleSubmit` turn the result of the upload request into
 either success or exactly one error string. `fetch`, `Response.json()` and the
 thrown JavaScript values are foreign; they enter only through the datatypes below.
 */
module UploadOutcome {
  import opened Wrappers
  import Decimal

  /** A field of a parsed JSON error body: a string, or any other JSON value with its
      JavaScript truthiness and its `String(value)` rendering. */
  datatype JsonValue = JString(s: string) | JOther(truthy: bool, shown: string)

  /** The `error` and `message` members of a parsed body (None: absent, or the body is not an object). */
  datatype ErrorFields = ErrorFields(error: Option<JsonValue>, message: Option<JsonValue>)

  /** What `response.json()` gives: the parsed fields, or the message of the SyntaxError it rejects with. */
  datatype Body = Parsed(fields: ErrorFields) | Unparseable(syntaxMessage: string)

  /** A value thrown during the attempt. */
  datatype Thrown =
    | TypeError(message: string)
    | OtherError(message: string)
    | NonError(truthy: bool)

  /** The result of `fetch`: a response, or the value its promise rejects with. */
  datatype Outcome =
    | Responded(status: nat, statusText: string, body: Body)
    | Rejected(thrown: Thrown)
  {
    /** `response.ok`. */
    predicate Ok() {
      Responded? && 200 <= status <= 299
    }
  }

  datatype Settlement = Succeeded | Failed(message: string)

  const FailedToFetch: string := "Failed to fetch"
  const NetworkMessage: string :=
    "Network error: Unable to connect to the server. Please check your connection and try again."
  const RetryMessage: string := "Upload failed. Please try again."
  const UnexpectedMessage: string := "An unexpected error occurred. Please try again."

  predicate Truthy(v: Option<JsonValue>) {
    match v
    case None => false
    case Some(JString(s)) => s != ""
    case Some(JOther(truthy, _)) => truthy
  }

  /** The message of `new Error(v)`: the value converted to a string. */
  function ErrorText(v: JsonValue): string {
    match v
    case JString(s) => s
    case JOther(_, shown) => shown
  }

  function StatusMessage(status: nat, statusText: string): string {
    "Upload failed: " + Decimal.NatToDecimal(status) + " " + statusText
  }

  /**
   The message of the Error thrown for a non-2xx response: the body's `error` if
   truthy, else its `message` if truthy, else the status line; a body that does not
   parse gives the status line too.
   */
  function ServerErrorMessage(status: nat, statusText: string, body: Body): (m: string)
    ensures body.Unparseable? ==> m == StatusMessage(status, statusText)
    ensures body.Parsed? && Truthy(body.fields.error) ==> m == ErrorText(body.fields.error.value)
    ensures body.Parsed? && !Truthy(body.fields.error) && Truthy(body.fields.message) ==>
              m == ErrorText(body.fields.message.value)
    ensures body.Parsed? && !Truthy(body.fields.error) && !Truthy(body.fields.message) ==>
              m == StatusMessage(status, statusText)
  {
    var fallback := StatusMessage(status, statusText);
    match body
    case Unparseable(_) => fallback
    case Parsed(fields) =>
      if Truthy(fields.error) || Truthy(fields.message) then
        (if Truthy(fields.error) then ErrorText(fields.error.value) else ErrorText(fields.message.value))
      else fallback
  }

  /** The value that escapes the `try` block of `uploadFile`, if any. */
  function ThrownBy(o: Outcome): (t: Option<Thrown>)
    ensures t.None? <==> o.Ok() && o.body.Parsed?
  {
    match o
    case Rejected(thrown) => Some(thrown)
    case Responded(status, statusText, body) =>
      if !o.Ok() then Some(OtherError(ServerErrorMessage(status, statusText, body)))
      else if body.Unparseable? then Some(OtherError(body.syntaxMessage))
      else None
  }

  /** The message the `catch` block of `uploadFile` sets for a thrown value. */
  function CaughtMessage(t: Thrown): string {
    match t
    case TypeError(message) => if message == FailedToFetch then NetworkMessage else message
    case OtherError(message) => message
    case NonError(_) => RetryMessage
  }

  /** JavaScript truthiness of a thrown value; every Error object is truthy. */
  predicate ThrownTruthy(t: Thrown) {
    !t.NonError? || t.truthy
  }

  /**
   The end of one attempt: success when nothing was thrown, otherwise the message
   left in the error state once `handleSubmit`'s own `catch` has run (it replaces the
   message only when the re-thrown value is falsy).
   */
  function Settle(o: Outcome): (r: Settlement)
    ensures r.Succeeded? <==> o.Ok() && o.body.Parsed?
  {
    match ThrownBy(o)
    case None => Succeeded
    case Some(t) => Failed(if ThrownTruthy(t) then CaughtMessage(t) else UnexpectedMessage)
  }

  /** A non-2xx response fails with the message chosen by the precedence error, message, status line. */
  lemma ServerErrorSettlement(o: Outcome)
    requires o.Responded? && !o.Ok()
    ensures Settle(o) == Failed(ServerErrorMessage(o.status, o.statusText, o.body))
    ensures o.body.Unparseable? ==> Settle(o) == Failed(StatusMessage(o.status, o.statusText))
  {
  }

  /** A 2xx response whose body does not parse fails with the parser's own message. */
  lemma UnparseableSuccessBody(o: Outcome)
    requires o.Ok() && o.body.Unparseable?
    ensures Settle(o) == Failed(o.body.syntaxMessage)
  {
  }

  /** Transport and other failures: the fixed network text, the error's own message, or a generic text. */
  lemma ThrownSettlement(t: Thrown)
    ensures t == TypeError(FailedToFetch) ==> Settle(Rejected(t)) == Failed(NetworkMessage)
    ensures t.TypeError? && t.message != FailedToFetch ==> Settle(Rejected(t)) == Failed(t.message)
    ensures t.OtherError? ==> Settle(Rejected(t)) == Failed(t.message)
    ensures t == NonError(true) ==> Settle(Rejected(t)) == Failed(RetryMessage)
    ensures t == NonError(false) ==> Settle(Rejected(t)) == Failed(UnexpectedMessage)
  {
  }

  /** The status line names the status code: its decimal digits can be read back from the message. */
  lemma StatusMessageNamesStatus(status: nat, statusText: string)
    ensures var m := StatusMessage(status, statusText);
            var digits := m[|"Upload failed: "|..|m| - |statusText| - 1];
            Decimal.AllDigits(digits) && Decimal.DecimalValue(digits) == status
  {
    var m := StatusMessage(status, statusText);
    assert m[|"Upload failed: "|..|m| - |statusText| - 1] == Decimal.NatToDecimal(status);
    Decimal.DecimalRoundTrip(status);
  }

  /** A 500 whose JSON body carries `error: "disk full"` surfaces exactly "disk full". */
  lemma DiskFullExample()
    ensures Settle(Responded(500, "Internal Server Error",
                             Parsed(ErrorFields(Some(JString("disk full")), None)))) == Failed("disk full")
  {
  }
}

=== FILE: server.dfy ===
/**
 The request handler of the static file server: strip the query, default the root
 to `/index.html`, fall back to `<path>.html`, pick the Content-Type from the
 lower-cased extension, and answer a missing file with `index.html` (single-page
 application fallback). The file system is a snapshot map from request paths to
 entries; joining with the server's directory is the identity on those paths.
 */
module StaticServer {
  import opened Wrappers

  newtype byte = x: int | 0 <= x < 256

  /** What is stored at a path: a readable file, a directory, or a file that cannot be read. */
  datatype Entry = File(content: seq<byte>) | Directory | Unreadable

  /**
   The directory tree as a map from paths (no trailing slash) to entries. The tree is
   expected to be well formed (`Tree`): every directory on the way to a stored path
   is stored itself.
   */
  type FileSystem = map<string, Entry>

  /** Every non-empty prefix of a stored path that ends just before a slash is a stored directory. */
  predicate Tree(fs: FileSystem) {
    forall k, i {:trigger k[..i]} :: k in fs && 0 < i < |k| && k[i] == '/' ==> k[..i] in fs && fs[k[..i]].Directory?
  }

  /**
   What the operating system finds at a path: an entry (`existsSync` is true), nothing
   (ENOENT), or a path that runs through a non-directory such as `/app.js/x` (ENOTDIR,
   and `existsSync` is false).
   */
  datatype Lookup = Found(entry: Entry) | Missing | NotADirectory

  datatype Header = Header(name: string, value: string)

  datatype Body = Content(bytes: seq<byte>) | Text(text: string)

  datatype Response = Response(status: nat, headers: seq<Header>, body: Body)

  /** `fs.readFile`: the content, ENOENT, or any other error (EISDIR, EACCES, ...). */
  datatype ReadResult = ReadOk(content: seq<byte>) | NotFound | ReadFailed

  /** `MIME_TYPES`. */
  const MimeTypes: map<string, string> := map[
    ".html" := "text/html",
    ".css" := "text/css",
    ".js" := "application/javascript",
    ".json" := "application/json",
    ".png" := "image/png",
    ".jpg" := "image/jpeg",
    ".svg" := "image/svg+xml",
    ".ico" := "image/x-icon"
  ]

  const DefaultContentType: string := "application/octet-stream"

  const IndexPath: string := "/index.html"

  const NoCacheHeaders: seq<Header> := [
    Header("Cache-Control", "no-cache, no-store, must-revalidate"),
    Header("Pragma", "no-cache"),
    Header("Expires", "0")
  ]

  /** `res.writeHead(500); res.end('Server error')`. */
  const ServerError: Response := Response(500, [], Text("Server error"))

  /** `url.split('?')[0]`: everything before the first question mark. */
  function StripQuery(url: string): (path: string)
    ensures path <= url
    ensures '?' !in path
    ensures |path| < |url| ==> url[|path|] == '?'
  {
    if url == [] then []
    else if url[0] == '?' then []
    else [url[0]] + StripQuery(url[1..])
  }

  /** Only the root itself is rewritten. */
  function RootDefault(path: string): (p: string)
    ensures p != path <==> path == "/"
    ensures path == "/" ==> p == IndexPath
  {
    if path == "/" then IndexPath else path
  }

  /**
   Some non-empty proper prefix of the path, followed by a slash, is stored as
   something other than a directory.
   */
  predicate ThroughNonDirectory(fs: FileSystem, path: string)
    decreases |path|
  {
    |path| > 1 &&
    var init := path[..|path| - 1];
    (path[|path| - 1] == '/' && init in fs && !fs[init].Directory?) || ThroughNonDirectory(fs, init)
  }

  /**
   Resolving a path: nothing lies beneath a file, a stored path is found as such, and a
   directory may be named with trailing slashes.
   */
  function LookUp(fs: FileSystem, path: string): (r: Lookup)
    ensures r.NotADirectory? <==> ThroughNonDirectory(fs, path)
    ensures !ThroughNonDirectory(fs, path) && path in fs ==> r == Found(fs[path])
    ensures r.Found? && path !in fs ==>
              && r.entry == Directory
              && TrimTrailingSlashes(path) != path
              && TrimTrailingSlashes(path) in fs && fs[TrimTrailingSlashes(path)].Directory?
    ensures r.Found? ==> (path in fs && r.entry == fs[path]) || r.entry == Directory
    ensures r == Missing <==>
              && !ThroughNonDirectory(fs, path)
              && path !in fs
              && !(TrimTrailingSlashes(path) in fs && fs[TrimTrailingSlashes(path)].Directory?)
    ensures !ThroughNonDirectory(fs, path) && path !in fs && (path == [] || path[|path| - 1] != '/') ==>
              r == Missing
  {
    if ThroughNonDirectory(fs, path) then NotADirectory
    else if path in fs then Found(fs[path])
    else
      var dir := TrimTrailingSlashes(path);
      if dir != path && dir in fs && fs[dir].Directory? then Found(Directory) else Missing
  }

  /** `fs.existsSync`. */
  predicate Exists(fs: FileSystem, path: string) {
    LookUp(fs, path).Found?
  }

  /** The path as requested if anything exists there, else `<path>.html` if that exists, else unchanged. */
  function ResolveHtml(fs: FileSystem, path: string): (p: string)
    ensures p == path || p == path + ".html"
    ensures Exists(fs, p) <==> Exists(fs, path) || Exists(fs, path + ".html")
    ensures p != path ==> !Exists(fs, path) && Exists(fs, path + ".html")
  {
    if !Exists(fs, path) && Exists(fs, path + ".html") then path + ".html" else path
  }

  function TrimTrailingSlashes(s: string): (r: string)
    ensures r <= s
    ensures r == [] || r[|r| - 1] != '/'
  {
    if |s| > 0 && s[|s| - 1] == '/' then TrimTrailingSlashes(s[..|s| - 1]) else s
  }

  /** The final path component: the longest suffix without a slash. */
  function LastSegment(s: string): (r: string)
    ensures '/' !in r && |r| <= |s|
    ensures |s| > 0 && s[|s| - 1] != '/' ==> |r| > 0
  {
    if s == [] then []
    else if s[|s| - 1] == '/' then []
    else LastSegment(s[..|s| - 1]) + [s[|s| - 1]]
  }

  /** Index of the last dot. */
  function LastDot(s: string): (i: Option<nat>)
    ensures i.None? ==> '.' !in s
    ensures i.Some? ==> i.value < |s| && s[i.value] == '.' && '.' !in s[i.value + 1..]
  {
    if s == [] then None
    else if s[|s| - 1] == '.' then Some(|s| - 1)
    else LastDot(s[..|s| - 1])
  }

  /**
   The extension of a final path component: from its last dot, unless there is no
   dot, the only dot leads the component, or the component is `..`.
   */
  function BaseExtension(base: string): (ext: string)
    requires '/' !in base
    ensures ext == [] || (ext[0] == '.' && '/' !in ext && '.' !in ext[1..])
    ensures |ext| <= |base| && ext == base[|base| - |ext|..]
    ensures '.' !in base ==> ext == []
    ensures |base| > 0 && base[0] == '.' && '.' !in base[1..] ==> ext == []
  {
    match LastDot(base)
    case None => ""
    case Some(d) => if d == 0 || (d == 1 && |base| == 2 && base[0] == '.') then "" else base[d..]
  }

  /** `path.extname` (POSIX): the extension of the last component, trailing slashes ignored. */
  function ExtName(path: string): (ext: string)
    ensures ext == [] || (ext[0] == '.' && '/' !in ext && '.' !in ext[1..])
    ensures '.' !in LastSegment(TrimTrailingSlashes(path)) ==> ext == []
  {
    BaseExtension(LastSegment(TrimTrailingSlashes(path)))
  }

  function LowerChar(c: char): char {
    if 'A' <= c <= 'Z' then (c as int + 32) as char else c
  }

  /** `toLowerCase` on ASCII letters. */
  function ToLower(s: string): (r: string)
    ensures |r| == |s|
    ensures forall i :: 0 <= i < |r| ==> !('A' <= r[i] <= 'Z')
    ensures forall i :: 0 <= i < |r| && !('A' <= s[i] <= 'Z') ==> r[i] == s[i]
    ensures forall i :: 0 <= i < |s| && 'A' <= s[i] <= 'Z' ==> r[i] as int == s[i] as int + 32
  {
    seq(|s|, i requires 0 <= i < |s| => LowerChar(s[i]))
  }

  /** `MIME_TYPES[ext] || 'application/octet-stream'`. */
  function ContentType(ext: string): string {
    if ext in MimeTypes then MimeTypes[ext] else DefaultContentType
  }

  /** `fs.readFile`: ENOENT only where nothing is found; a directory, an unreadable file or ENOTDIR fail otherwise. */
  function ReadFile(fs: FileSystem, path: string): (r: ReadResult)
    ensures r.NotFound? <==> LookUp(fs, path) == Missing
    ensures r.ReadOk? <==> !ThroughNonDirectory(fs, path) && path in fs && fs[path].File?
    ensures r.ReadOk? ==> r.content == fs[path].content
    ensures ThroughNonDirectory(fs, path) ==> r == ReadFailed
  {
    match LookUp(fs, path)
    case Found(File(content)) => ReadOk(content)
    case Found(_) => ReadFailed
    case Missing => NotFound
    case NotADirectory => ReadFailed
  }

  /** The path the handler tries to read for a request URL. */
  function TargetPath(fs: FileSystem, url: string): string {
    ResolveHtml(fs, RootDefault(StripQuery(url)))
  }

  /** The lower-cased extension of the path the handler tries to read. */
  function TargetExtension(fs: FileSystem, url: string): string {
    ToLower(ExtName(TargetPath(fs, url)))
  }

  /** The answer for a file that was read: 200, its Content-Type, and the no-cache headers for `.html`. */
  function FileResponse(content: seq<byte>, ext: string): (r: Response)
    ensures r.status == 200 && r.body == Content(content)
    ensures |r.headers| >= 1 && r.headers[0] == Header("Content-Type", ContentType(ext))
    ensures r.headers[1..] == (if r.headers[0].value == "text/html" then NoCacheHeaders else [])
  {
    ContentTypeDefaultsExactlyOffTable(ext);
    var headers := [Header("Content-Type", ContentType(ext))] + (if ext == ".html" then NoCacheHeaders else []);
    Response(200, headers, Content(content))
  }

  /** The single-page application fallback for a missing file. */
  function IndexFallback(fs: FileSystem): (r: Response)
    ensures r.status == 200 || r == ServerError
    ensures r.status == 200 <==> IndexPath in fs && fs[IndexPath].File?
    ensures r.status == 200 ==>
              r == Response(200, [Header("Content-Type", "text/html")] + NoCacheHeaders, Content(fs[IndexPath].content))
  {
    IndexPathIsDirect(fs);
    match ReadFile(fs, IndexPath)
    case ReadOk(index) => Response(200, [Header("Content-Type", "text/html")] + NoCacheHeaders, Content(index))
    case _ => ServerError
  }

  /**
   The response to a request. Every answer is a 200 carrying the bytes of some file,
   or the 500 "Server error"; a 200 starts with its Content-Type and carries the
   three no-cache headers exactly when that type is HTML.
   */
  function Handle(fs: FileSystem, url: string): (r: Response)
    ensures r.status == 200 || r == ServerError
    ensures r.status == 200 ==> r.body.Content? && exists k :: k in fs && fs[k] == File(r.body.bytes)
    ensures r.status == 200 ==>
              |r.headers| >= 1 && r.headers[0].name == "Content-Type"
              && r.headers[1..] == (if r.headers[0].value == "text/html" then NoCacheHeaders else [])
    ensures ReadFile(fs, TargetPath(fs, url)).ReadFailed? ==> r == ServerError
    ensures ReadFile(fs, TargetPath(fs, url)).NotFound? ==> r == IndexFallback(fs)
  {
    var path := TargetPath(fs, url);
    match ReadFile(fs, path)
    case ReadOk(content) =>
      assert fs[path] == File(content);
      FileResponse(content, TargetExtension(fs, url))
    case NotFound =>
      var r := IndexFallback(fs);
      assert r.status == 200 ==> fs[IndexPath] == File(r.body.bytes);
      r
    case ReadFailed => ServerError
  }

  /** The table has eight entries. */
  lemma MimeTableSize()
    ensures |MimeTypes| == 8
  {
    MimeKeysDistinct();
  }

  /** The table's keys differ in length or in their second character. */
  lemma MimeKeysDistinct()
    ensures |".html"| == 5 && |".json"| == 5
    ensures |".css"| == 4 && |".png"| == 4 && |".jpg"| == 4 && |".svg"| == 4 && |".ico"| == 4
    ensures |".js"| == 3
    ensures ".html"[1] == 'h' && ".json"[1] == 'j'
    ensures ".css"[1] == 'c' && ".png"[1] == 'p' && ".jpg"[1] == 'j' && ".svg"[1] == 's' && ".ico"[1] == 'i'
  {
  }

  /** The default type means "not in the table", and only `.html` maps to HTML. */
  lemma ContentTypeDefaultsExactlyOffTable(ext: string)
    ensures ContentType(ext) == DefaultContentType <==> ext !in MimeTypes
    ensures ContentType(ext) == "text/html" <==> ext == ".html"
  {
    if ext in MimeTypes {
      assert MimeTypes[ext] in MimeTypes.Values;
    }
  }

  /** The query never influences the response. */
  lemma QueryIgnored(fs: FileSystem, path: string, query: string)
    requires '?' !in path
    ensures StripQuery(path + "?" + query) == path
    ensures Handle(fs, path + "?" + query) == Handle(fs, path)
  {
    var url := path + "?" + query;
    var p := StripQuery(url);
    assert url[|path|] == '?';
    assert p == path;
    assert StripQuery(path) == path;
    assert TargetPath(fs, url) == TargetPath(fs, path);
    assert TargetExtension(fs, url) == TargetExtension(fs, path);
  }

  /** The last component is the part of the path after its last slash. */
  lemma {:induction false} LastSegmentIsSuffix(s: string)
    ensures var r := LastSegment(s);
            && r == s[|s| - |r|..]
            && (|r| < |s| ==> s[|s| - |r| - 1] == '/')
    decreases |s|
  {
    if s != [] && s[|s| - 1] != '/' {
      var init, c := s[..|s| - 1], s[|s| - 1];
      LastSegmentIsSuffix(init);
      var r0 := LastSegment(init);
      assert LastSegment(s) == r0 + [c];
      assert s == init + [c];
      assert r0 == init[|init| - |r0|..];
      assert s[|s| - |r0| - 1..] == init[|init| - |r0|..] + [c];
      if |r0| < |init| {
        assert s[|s| - |r0| - 2] == init[|init| - |r0| - 1];
      }
    }
  }

  /** `a` is the tail end of `b`. */
  predicate IsSuffix(a: string, b: string) {
    |a| <= |b| && a == b[|b| - |a|..]
  }

  /** A suffix of a suffix is a suffix. */
  lemma SuffixOfSuffix(a: string, b: string, c: string)
    requires IsSuffix(b, a) && IsSuffix(c, b)
    ensures IsSuffix(c, a)
  {
    forall i | 0 <= i < |c|
      ensures c[i] == a[|a| - |c| + i]
    {
      assert c[i] == b[|b| - |c| + i];
      assert b[|b| - |c| + i] == a[|a| - |b| + |b| - |c| + i];
    }
  }

  /** The extension is a suffix of the path once trailing slashes are dropped. */
  lemma ExtNameIsSuffix(path: string)
    ensures IsSuffix(ExtName(path), TrimTrailingSlashes(path))
  {
    var trimmed := TrimTrailingSlashes(path);
    var base := LastSegment(trimmed);
    var ext := ExtName(path);
    assert IsSuffix(base, trimmed) by {
      LastSegmentIsSuffix(trimmed);
    }
    assert IsSuffix(ext, base) by {
      ExtNameWithinLastSegment(path);
    }
    SuffixOfSuffix(trimmed, base, ext);
  }

  lemma ExtNameWithinLastSegment(path: string)
    ensures IsSuffix(ExtName(path), LastSegment(TrimTrailingSlashes(path)))
  {
  }

  lemma LastSegmentSnoc(u: string, c: char)
    requires c != '/'
    ensures LastSegment(u + [c]) == LastSegment(u) + [c]
  {
    assert (u + [c])[..|u|] == u;
  }

  lemma {:induction false} LastSegmentAppend(s: string, t: string)
    requires forall i :: 0 <= i < |t| ==> t[i] != '/'
    ensures LastSegment(s + t) == LastSegment(s) + t
    decreases |t|
  {
    if t == [] {
      assert s + t == s;
    } else {
      var init, last := t[..|t| - 1], t[|t| - 1];
      assert forall i :: 0 <= i < |init| ==> init[i] == t[i];
      LastSegmentAppend(s, init);
      assert last != '/';
      assert s + t == (s + init) + [last];
      LastSegmentSnoc(s + init, last);
      assert LastSegment(s) + t == (LastSegment(s) + init) + [last];
    }
  }

  lemma {:induction false} LastDotBeforeDotless(s: string, t: string)
    requires '.' !in t
    ensures LastDot(s + ['.'] + t) == Some(|s|)
    decreases |t|
  {
    var full := s + ['.'] + t;
    if t == [] {
      assert full[|full| - 1] == '.';
    } else {
      var init := t[..|t| - 1];
      assert t[|t| - 1] in t;
      assert full[|full| - 1] == t[|t| - 1];
      assert full[..|full| - 1] == s + ['.'] + init;
      assert forall c :: c in init ==> c in t;
      LastDotBeforeDotless(s, init);
    }
  }

  /**
   A non-empty component followed by a dot and a dotless tail has that dot and tail
   as its extension, except for the component `..`.
   */
  lemma BaseExtensionOfSuffix(seg: string, tail: string)
    requires |seg| >= 1 && '/' !in seg
    requires '/' !in tail && '.' !in tail
    requires !(seg == "." && tail == [])
    ensures BaseExtension(seg + ['.'] + tail) == ['.'] + tail
  {
    var base := seg + ['.'] + tail;
    LastDotBeforeDotless(seg, tail);
    assert base[|seg|..] == ['.'] + tail;
  }

  /**
   Appending a dot and a dotless tail to a path that does not end in a slash gives
   it exactly that extension, unless the last component was `.`.
   */
  lemma ExtNameOfAppended(path: string, tail: string)
    requires |path| > 0 && path[|path| - 1] != '/'
    requires '/' !in tail && '.' !in tail
    requires !(LastSegment(path) == "." && tail == [])
    ensures ExtName(path + ['.'] + tail) == ['.'] + tail
  {
    AppendedKeepsShape(path, tail);
    BaseExtensionOfSuffix(LastSegment(path), tail);
  }

  /** Appending a dot and a slash-free tail adds no trailing slash and extends the last component. */
  lemma AppendedKeepsShape(path: string, tail: string)
    requires |path| > 0 && path[|path| - 1] != '/'
    requires '/' !in tail
    ensures TrimTrailingSlashes(path + ['.'] + tail) == path + ['.'] + tail
    ensures LastSegment(path + ['.'] + tail) == LastSegment(path) + ['.'] + tail
  {
    var suffix := ['.'] + tail;
    var full := path + suffix;
    assert full == path + ['.'] + tail;
    SuffixHasNoSlash(tail);
    assert full[|full| - 1] == suffix[|suffix| - 1];
    NoTrailingSlash(full);
    LastSegmentAppend(path, suffix);
  }

  lemma NoTrailingSlash(s: string)
    requires |s| > 0 && s[|s| - 1] != '/'
    ensures TrimTrailingSlashes(s) == s
  {
  }

  lemma SuffixHasNoSlash(tail: string)
    requires '/' !in tail
    ensures forall i :: 0 <= i < |['.'] + tail| ==> (['.'] + tail)[i] != '/'
  {
    forall i | 0 <= i < |['.'] + tail|
      ensures (['.'] + tail)[i] != '/'
    {
      if i > 0 {
        assert (['.'] + tail)[i] == tail[i - 1];
        assert tail[i - 1] in tail;
      }
    }
  }

  /** A path not ending in a slash gains exactly the extension `.html` from the fallback. */
  lemma HtmlFallbackExtension(path: string)
    requires |path| > 0 && path[|path| - 1] != '/'
    ensures ExtName(path + ".html") == ".html"
  {
    var html := ['h', 't', 'm', 'l'];
    HtmlIsDotTail();
    assert path + ".html" == path + ['.'] + html;
    ExtNameOfAppended(path, html);
  }

  lemma HtmlIsDotTail()
    ensures ".html" == ['.'] + ['h', 't', 'm', 'l']
    ensures '.' !in ['h', 't', 'm', 'l'] && '/' !in ['h', 't', 'm', 'l']
  {
  }

  /** An existing file is served with 200, its own bytes and its table Content-Type; only `.html` gets the no-cache headers. */
  lemma ExistingFileServed(fs: FileSystem, url: string)
    requires !ThroughNonDirectory(fs, TargetPath(fs, url))
    requires TargetPath(fs, url) in fs && fs[TargetPath(fs, url)].File?
    ensures var r := Handle(fs, url);
            var ext := TargetExtension(fs, url);
            && r.status == 200
            && r.body == Content(fs[TargetPath(fs, url)].content)
            && r.headers[0] == Header("Content-Type", ContentType(ext))
            && (ext == ".html" ==> |r.headers| == 4)
            && (ext != ".html" ==> |r.headers| == 1)
  {
  }

  /** Nothing at the path nor at `<path>.html`: the index page is served as HTML without caching, or 500 if it cannot be read. */
  lemma MissingFileFallsBackToIndex(fs: FileSystem, url: string)
    requires LookUp(fs, TargetPath(fs, url)) == Missing
    ensures IndexPath in fs && fs[IndexPath].File? ==>
              Handle(fs, url) == Response(200, [Header("Content-Type", "text/html")] + NoCacheHeaders,
                                          Content(fs[IndexPath].content))
    ensures !(IndexPath in fs && fs[IndexPath].File?) ==> Handle(fs, url) == ServerError
  {
    IndexPathIsDirect(fs);
  }

  /**
   The single-page application fallback for an unknown route: nothing stored at the
   path or at `<path>.html`, and nothing on the way to either is a file. The index
   page is then served as uncached HTML.
   */
  lemma UnknownRouteServesIndex(fs: FileSystem, path: string)
    requires '?' !in path && path != "/" && |path| > 0 && path[|path| - 1] != '/'
    requires path !in fs && path + ".html" !in fs
    requires forall i :: !BlockedAt(fs, path, i)
    requires IndexPath in fs && fs[IndexPath].File?
    ensures Handle(fs, path) == Response(200, [Header("Content-Type", "text/html")] + NoCacheHeaders,
                                         Content(fs[IndexPath].content))
  {
    ThroughNonDirectoryWitness(fs, path);
    NoTrailingSlash(path);
    assert LookUp(fs, path) == Missing;
    HtmlSuffixNotBlocked(fs, path);
    var html := path + ".html";
    assert html[|html| - 1] == 'l';
    NoTrailingSlash(html);
    assert LookUp(fs, html) == Missing;
    assert StripQuery(path) == path;
    assert TargetPath(fs, path) == path;
    MissingFileFallsBackToIndex(fs, path);
  }

  /** Appending `.html` adds no slash, so it cannot put the path below a file. */
  lemma HtmlSuffixNotBlocked(fs: FileSystem, path: string)
    requires forall i :: !BlockedAt(fs, path, i)
    ensures !ThroughNonDirectory(fs, path + ".html")
  {
    var html := path + ".html";
    forall i | 0 < i < |path|
      ensures !BlockedAt(fs, html, i)
    {
      assert html[..i] == path[..i] && html[i] == path[i];
      assert !BlockedAt(fs, path, i);
    }
    assert forall i :: |path| <= i < |html| ==> html[i] == ".html"[i - |path|];
    ThroughNonDirectoryWitness(fs, html);
  }

  /**
   In a well-formed tree a path the lookup misses has nothing stored below it, so the
   missing case never hides a directory that only its contents reveal.
   */
  lemma MissingHasNothingBelow(fs: FileSystem, path: string, k: string)
    requires Tree(fs) && |path| > 0 && LookUp(fs, path) == Missing
    requires k in fs && |path| < |k|
    ensures !(k[..|path|] == path && k[|path|] == '/')
  {
  }

  /** Something that exists but is not a readable file (a directory, say) is a 500, even when `<path>.html` exists. */
  lemma UnreadableEntryIsServerError(fs: FileSystem, url: string)
    requires RootDefault(StripQuery(url)) in fs && !fs[RootDefault(StripQuery(url))].File?
    ensures Handle(fs, url) == ServerError
  {
    var p := RootDefault(StripQuery(url));
    if ThroughNonDirectory(fs, p) {
      PathThroughFileIsServerError(fs, url);
    }
  }

  /** A prefix blocks a path exactly when it is a non-directory followed by a slash. */
  predicate BlockedAt(fs: FileSystem, path: string, i: int) {
    0 < i < |path| && path[i] == '/' && path[..i] in fs && !fs[path[..i]].Directory?
  }

  /** The recursive definition agrees with "some proper prefix blocks the path". */
  lemma {:induction false} ThroughNonDirectoryWitness(fs: FileSystem, path: string)
    ensures ThroughNonDirectory(fs, path) <==> exists i :: BlockedAt(fs, path, i)
    decreases |path|
  {
    if |path| <= 1 {
      assert forall i :: !BlockedAt(fs, path, i);
    } else {
      var init := path[..|path| - 1];
      var last := |path| - 1;
      ThroughNonDirectoryWitness(fs, init);
      assert BlockedAt(fs, path, last) <==> path[last] == '/' && init in fs && !fs[init].Directory? by {
        assert path[..last] == init;
      }
      if ThroughNonDirectory(fs, init) {
        var i :| BlockedAt(fs, init, i);
        assert path[..i] == init[..i];
        assert BlockedAt(fs, path, i);
      }
      if exists i :: BlockedAt(fs, path, i) {
        var i :| BlockedAt(fs, path, i);
        if i < last {
          assert init[..i] == path[..i] && init[i] == path[i];
          assert BlockedAt(fs, init, i);
        }
      }
    }
  }

  /** Whatever lies beneath a non-directory lies beneath it with any suffix too. */
  lemma ThroughNonDirectoryExtends(fs: FileSystem, path: string, suffix: string)
    requires ThroughNonDirectory(fs, path)
    ensures ThroughNonDirectory(fs, path + suffix)
  {
    ThroughNonDirectoryWitness(fs, path);
    var i :| BlockedAt(fs, path, i);
    assert (path + suffix)[..i] == path[..i];
    assert BlockedAt(fs, path + suffix, i);
    ThroughNonDirectoryWitness(fs, path + suffix);
  }

  /**
   A request below a file, such as `/app.js/` when `/app.js` is a file, exists neither
   as asked nor with `.html`, and reading it fails with ENOTDIR, not ENOENT: 500.
   */
  lemma PathThroughFileIsServerError(fs: FileSystem, url: string)
    requires ThroughNonDirectory(fs, RootDefault(StripQuery(url)))
    ensures Handle(fs, url) == ServerError
  {
    var p := RootDefault(StripQuery(url));
    ThroughNonDirectoryExtends(fs, p, ".html");
    assert TargetPath(fs, url) == p;
  }

  /** `/app.js/` where `/app.js` is a script is answered 500, not with the index page. */
  lemma ScriptWithSlashIsServerError(script: seq<byte>, index: seq<byte>)
    ensures Handle(map["/app.js" := File(script), IndexPath := File(index)], "/app.js/") == ServerError
  {
    var fs := map["/app.js" := File(script), IndexPath := File(index)];
    var url := "/app.js/";
    ScriptUrlHasNoQuery();
    assert url[..7] == "/app.js" && url[7] == '/';
    assert ThroughNonDirectory(fs, url);
    PathThroughFileIsServerError(fs, url);
  }

  lemma ScriptUrlHasNoQuery()
    ensures StripQuery("/app.js/") == "/app.js/"
    ensures RootDefault("/app.js/") == "/app.js/"
  {
    assert '?' !in "/app.js/";
  }

  /** The index page has no slash after its first character, so nothing blocks it. */
  lemma IndexPathIsDirect(fs: FileSystem)
    ensures !ThroughNonDirectory(fs, IndexPath)
    ensures LookUp(fs, IndexPath) == if IndexPath in fs then Found(fs[IndexPath]) else Missing
  {
    assert forall i :: 0 < i < |IndexPath| ==> IndexPath[i] != '/';
    ThroughNonDirectoryWitness(fs, IndexPath);
    assert TrimTrailingSlashes(IndexPath) == IndexPath;
  }

  /** A request for the root, with or without a query, serves the index page as uncached HTML. */
  lemma RootServesIndex(fs: FileSystem, url: string)
    requires StripQuery(url) == "/"
    requires IndexPath in fs && fs[IndexPath].File?
    ensures Handle(fs, url) == Response(200, [Header("Content-Type", "text/html")] + NoCacheHeaders,
                                        Content(fs[IndexPath].content))
  {
    RootIsIndex();
    IndexIsHtml();
    IndexPathIsDirect(fs);
    assert TargetPath(fs, url) == IndexPath;
    HtmlFileServed(fs, url);
  }

  lemma RootIsIndex()
    ensures RootDefault("/") == IndexPath
  {
  }

  lemma IndexIsHtml()
    ensures ExtName(IndexPath) == ".html"
  {
    HtmlFallbackExtension("/index");
    assert "/index" + ".html" == IndexPath;
  }

  lemma HtmlLiterals()
    ensures ToLower(".html") == ".html"
    ensures ContentType(".html") == "text/html"
  {
  }

  /** A file reached with the extension `.html` is served as uncached HTML. */
  lemma HtmlFileServed(fs: FileSystem, url: string)
    requires !ThroughNonDirectory(fs, TargetPath(fs, url))
    requires TargetPath(fs, url) in fs && fs[TargetPath(fs, url)].File?
    requires ExtName(TargetPath(fs, url)) == ".html"
    ensures Handle(fs, url) == Response(200, [Header("Content-Type", "text/html")] + NoCacheHeaders,
                                        Content(fs[TargetPath(fs, url)].content))
  {
    HtmlLiterals();
    assert TargetExtension(fs, url) == ".html";
    ExistingFileServed(fs, url);
    var r := Handle(fs, url);
    var typeHeader := Header("Content-Type", "text/html");
    assert r.headers[0] == typeHeader;
    assert r.headers[1..] == NoCacheHeaders;
    assert r.headers == [typeHeader] + NoCacheHeaders by {
      assert r.headers == [r.headers[0]] + r.headers[1..];
    }
  }

  /**
   A clean URL whose page exists only as `<path>.html` is served from that file
   as uncached HTML.
   */
  lemma CleanUrlServesHtml(fs: FileSystem, path: string)
    requires '?' !in path && path != "/" && |path| > 0 && path[|path| - 1] != '/'
    requires path !in fs && !ThroughNonDirectory(fs, path + ".html")
    requires path + ".html" in fs && fs[path + ".html"].File?
    ensures Handle(fs, path) == Response(200, [Header("Content-Type", "text/html")] + NoCacheHeaders,
                                         Content(fs[path + ".html"].content))
  {
    assert StripQuery(path) == path;
    if ThroughNonDirectory(fs, path) {
      ThroughNonDirectoryExtends(fs, path, ".html");
    }
    assert TrimTrailingSlashes(path) == path;
    assert !Exists(fs, path);
    assert TargetPath(fs, path) == path + ".html";
    HtmlFallbackExtension(path);
    HtmlFileServed(fs, path);
  }
}

=== FILE: session.dfy ===
/**
 The upload dialog as a transition system. The React state is the triple
 `selectedFile`, `error`, `isUploading`; the awaiting `uploadFile` call is the
 `pending` file it captured. `handleSubmit` is split at its one `await`: the
 Submit event runs it up to the request, the OutcomeArrived event runs the rest once the
 request's outcome arrives. Calls out of the component (the request itself,
 `onUploadSuccess`, `onClose`) are returned as effects.
 */
module UploadSession {
  import opened Wrappers
  import opened Validation
  import UploadOutcome

  datatype Session = Session(
    selectedFile: Option<VideoFile>,
    error: string,
    isUploading: bool,
    pending: Option<VideoFile>)

  datatype Effect =
    | SendRequest(file: VideoFile)
    | UploadSuccess(file: VideoFile)
    | CloseDialog

  datatype Event =
    | SelectFiles(files: seq<VideoFile>)
    | Submit
    | Cancel
    | OutcomeArrived(outcome: UploadOutcome.Outcome)

  /** Whether the parent passed an `onUploadSuccess` callback. */
  datatype Props = Props(hasUploadSuccess: bool)

  datatype Transition = Transition(next: Session, effects: seq<Effect>)

  const Initial: Session := Session(None, "", false, None)

  const NoFileMessage: string := "Please select a file to upload"

  /** The Upload button is disabled without a selected file and while uploading. */
  predicate SubmitEnabled(s: Session) {
    s.selectedFile.Some? && !s.isUploading
  }

  /** The Cancel button is disabled while uploading. */
  predicate CancelEnabled(s: Session) {
    !s.isUploading
  }

  /** What every reachable state satisfies. */
  predicate Consistent(s: Session) {
    && (s.isUploading <==> s.pending.Some?)
    && (s.selectedFile.Some? ==> Validate(s.selectedFile.value).Accepted?)
    && (s.pending.Some? ==> Validate(s.pending.value).Accepted?)
  }

  function CountRequests(effects: seq<Effect>): nat {
    if effects == [] then 0
    else (if effects[0].SendRequest? then 1 else 0) + CountRequests(effects[1..])
  }

  /** The outcomes in a run that arrive while a request is awaited; the others are ignored. */
  function CountAwaitedSettles(s: Session, props: Props, events: seq<Event>): nat
    decreases |events|
  {
    if events == [] then 0
    else
      (if events[0].OutcomeArrived? && s.pending.Some? then 1 else 0)
      + CountAwaitedSettles(Step(s, props, events[0]).next, props, events[1..])
  }

  /**
   `handleFileSelect`: only the first chosen file is looked at; it is validated
   (which rewrites the error) and stored only when accepted. A rejected file leaves
   any earlier selection in place; choosing nothing changes nothing.
   */
  function HandleFileSelect(s: Session, files: seq<VideoFile>): (t: Transition)
    ensures t.effects == []
    ensures |files| == 0 ==> t.next == s
    ensures |files| > 0 && Validate(files[0]).Accepted? ==>
              t.next == s.(selectedFile := Some(files[0]), error := "")
    ensures |files| > 0 && Validate(files[0]).Rejected? ==>
              t.next == s.(error := Validate(files[0]).reason) && t.next.error != ""
  {
    if |files| == 0 then Transition(s, [])
    else
      var f := files[0];
      var validated := s.(error := ErrorAfterValidation(s.error, f));
      if Validate(f).Accepted? then Transition(validated.(selectedFile := Some(f)), [])
      else Transition(validated, [])
  }

  /**
   The part of `uploadFile` before its `await`, together with what `handleSubmit`
   does when `uploadFile` returns normally. The size re-check does not throw: it
   sets the message and returns, after which `handleSubmit` clears the selection
   and closes the dialog without any request having been sent.
   */
  function BeginUpload(s: Session, f: VideoFile): (t: Transition)
    ensures f.size > MaxFileSize ==>
              t.effects == [CloseDialog] && t.next.selectedFile.None? && !t.next.isUploading
              && t.next.error == SizeMessage(f.size)
    ensures f.size <= MaxFileSize ==>
              t.effects == [SendRequest(f)] && t.next == s.(pending := Some(f))
  {
    if f.size > MaxFileSize then
      Transition(s.(error := SizeMessage(f.size), selectedFile := None, isUploading := false), [CloseDialog])
    else
      Transition(s.(pending := Some(f)), [SendRequest(f)])
  }

  /**
   `handleSubmit` up to the request: without a file it only sets the error;
   otherwise it clears the error, raises the upload flag and re-validates, lowering
   the flag again on rejection. A request is sent only for an accepted file.
   */
  function HandleSubmit(s: Session): (t: Transition)
    ensures s.selectedFile.None? ==> t == Transition(s.(error := NoFileMessage), [])
    ensures s.selectedFile.Some? && Validate(s.selectedFile.value).Rejected? ==>
              t.effects == [] && !t.next.isUploading && t.next.selectedFile == s.selectedFile
              && t.next.error == Validate(s.selectedFile.value).reason
    ensures s.selectedFile.Some? && Validate(s.selectedFile.value).Accepted? ==>
              var f := s.selectedFile.value;
              t == Transition(s.(error := "", isUploading := true, pending := Some(f)), [SendRequest(f)])
  {
    if s.selectedFile.None? then Transition(s.(error := NoFileMessage), [])
    else
      var f := s.selectedFile.value;
      var started := s.(error := "", isUploading := true);
      var validated := started.(error := ErrorAfterValidation(started.error, f));
      if Validate(f).Rejected? then Transition(validated.(isUploading := false), [])
      else BeginUpload(validated, f)
  }

  /**
   The rest of `handleSubmit` once the request's outcome is known. On success the
   callback (when given) receives the submitted file, the selection is cleared and
   the dialog closes; on failure the message replaces the error and the selection
   stays. Either way the upload flag ends lowered.
   */
  function HandleOutcome(s: Session, props: Props, o: UploadOutcome.Outcome): (t: Transition)
    requires s.pending.Some?
    ensures !t.next.isUploading && t.next.pending.None?
    ensures forall e :: e in t.effects ==> !e.SendRequest?
    ensures forall e :: e in t.effects && e.UploadSuccess? ==> e.file == s.pending.value
    ensures multiset(t.effects)[UploadSuccess(s.pending.value)] ==
              if o.Ok() && o.body.Parsed? && props.hasUploadSuccess then 1 else 0
    ensures o.Ok() && o.body.Parsed? ==>
              t.next.selectedFile.None? && CloseDialog in t.effects && t.next.error == s.error
    ensures !(o.Ok() && o.body.Parsed?) ==>
              t.effects == [] && t.next.selectedFile == s.selectedFile
              && t.next.error == UploadOutcome.Settle(o).message
  {
    var f := s.pending.value;
    var done := s.(isUploading := false, pending := None);
    match UploadOutcome.Settle(o)
    case Succeeded =>
      var callback := if props.hasUploadSuccess then [UploadSuccess(f)] else [];
      Transition(done.(selectedFile := None), callback + [CloseDialog])
    case Failed(message) =>
      Transition(done.(error := message), [])
  }

  /**
   One event. Disabled buttons do not fire, the file input is always live, and an
   outcome only matters while a request is awaited.
   */
  function Step(s: Session, props: Props, ev: Event): (t: Transition)
    ensures Consistent(s) ==> Consistent(t.next)
    ensures s.isUploading && (ev.Submit? || ev.Cancel?) ==> t == Transition(s, [])
    ensures ev.Submit? && !SubmitEnabled(s) ==> t == Transition(s, [])
    ensures ev.Cancel? && !s.isUploading ==> t == Transition(s, [CloseDialog])
  {
    match ev
    case SelectFiles(files) => HandleFileSelect(s, files)
    case Submit => if SubmitEnabled(s) then HandleSubmit(s) else Transition(s, [])
    case Cancel => if CancelEnabled(s) then Transition(s, [CloseDialog]) else Transition(s, [])
    case OutcomeArrived(o) => if s.pending.Some? then HandleOutcome(s, props, o) else Transition(s, [])
  }

  /** A sequence of events, effects in the order they happen. */
  function Run(s: Session, props: Props, events: seq<Event>): (t: Transition)
    ensures Consistent(s) ==> Consistent(t.next)
    decreases |events|
  {
    if events == [] then Transition(s, [])
    else
      var first := Step(s, props, events[0]);
      var rest := Run(first.next, props, events[1..]);
      Transition(rest.next, first.effects + rest.effects)
  }

  /** Every state the dialog can reach from its initial state is consistent. */
  lemma ReachableStatesConsistent(props: Props, events: seq<Event>)
    ensures Consistent(Run(Initial, props, events).next)
  {
  }

  /**
   From a reachable state an enabled submit always sends exactly one request: the
   re-validation inside `handleSubmit` and the size re-check inside `uploadFile`
   cannot fail there, since the stored file was accepted when it was selected.
   */
  lemma EnabledSubmitSendsRequest(s: Session, props: Props)
    requires Consistent(s) && SubmitEnabled(s)
    ensures var f := s.selectedFile.value;
            Step(s, props, Submit) ==
              Transition(s.(error := "", isUploading := true, pending := Some(f)), [SendRequest(f)])
  {
  }

  lemma {:induction false} CountRequestsAppend(a: seq<Effect>, b: seq<Effect>)
    ensures CountRequests(a + b) == CountRequests(a) + CountRequests(b)
  {
    if a != [] {
      assert (a + b)[0] == a[0];
      assert (a + b)[1..] == a[1..] + b;
      CountRequestsAppend(a[1..], b);
    } else {
      assert a + b == b;
    }
  }

  lemma {:induction false} CountRequestsNone(effects: seq<Effect>)
    requires forall e :: e in effects ==> !e.SendRequest?
    ensures CountRequests(effects) == 0
  {
    if effects != [] {
      assert effects[0] in effects;
      assert forall e :: e in effects[1..] ==> e in effects;
      CountRequestsNone(effects[1..]);
    }
  }

  /** One step sends at most one request, and only from a state with no request awaited. */
  lemma StepRequests(s: Session, props: Props, ev: Event)
    requires Consistent(s)
    ensures var t := Step(s, props, ev);
            && CountRequests(t.effects) <= (if s.isUploading then 0 else 1)
            && (CountRequests(t.effects) == 1 ==> t.next.isUploading)
            && (!ev.OutcomeArrived? && !s.isUploading && t.next.isUploading ==> CountRequests(t.effects) == 1)
            && (!ev.OutcomeArrived? && s.isUploading ==> t.next.isUploading)
            && (ev.OutcomeArrived? ==> CountRequests(t.effects) == 0 && !t.next.isUploading)
  {
    var t := Step(s, props, ev);
    match ev
    case SelectFiles(files) =>
    case Submit =>
      if SubmitEnabled(s) {
        assert t.effects == [SendRequest(s.selectedFile.value)];
      }
    case Cancel =>
    case OutcomeArrived(o) =>
      if s.pending.Some? {
        CountRequestsNone(t.effects);
      }
  }

  /**
   Single in-flight request: over any run, every request sent is answered by an
   awaited outcome, except the one still pending at the end. So requests never
   outnumber awaited outcomes by more than one, and by none when a request was
   already awaited at the start.
   */
  lemma {:induction false} RequestsBoundedBySettles(s: Session, props: Props, events: seq<Event>)
    requires Consistent(s)
    ensures var t := Run(s, props, events);
            CountRequests(t.effects) + (if s.isUploading then 1 else 0)
            == CountAwaitedSettles(s, props, events) + (if t.next.isUploading then 1 else 0)
    ensures CountRequests(Run(s, props, events).effects)
            <= CountAwaitedSettles(s, props, events) + (if s.isUploading then 0 else 1)
    decreases |events|
  {
    if events != [] {
      var first := Step(s, props, events[0]);
      StepRequests(s, props, events[0]);
      RequestsBoundedBySettles(first.next, props, events[1..]);
      CountRequestsAppend(first.effects, Run(first.next, props, events[1..]).effects);
    }
  }

  /** Two submits in a row while the first is still awaited send exactly one request. */
  lemma DoubleSubmitSendsOnce(s: Session, props: Props)
    requires Consistent(s) && SubmitEnabled(s)
    ensures Run(s, props, [Submit, Submit]).effects == [SendRequest(s.selectedFile.value)]
  {
    EnabledSubmitSendsRequest(s, props);
    RunPair(s, props, Submit, Submit);
  }

  /**
   A whole attempt, from an enabled submit to the arrival of its outcome: one
   request for the selected file; then either the callback gets that file once, the
   selection is cleared and the dialog closes, or the outcome's message is shown
   with the selection kept. The upload flag ends lowered either way.
   */
  lemma SubmitThenSettle(s: Session, props: Props, o: UploadOutcome.Outcome)
    requires Consistent(s) && SubmitEnabled(s)
    ensures var f := s.selectedFile.value;
            var t := Run(s, props, [Submit, OutcomeArrived(o)]);
            && !t.next.isUploading && t.next.pending.None?
            && (o.Ok() && o.body.Parsed? ==>
                  && t.next.selectedFile.None? && t.next.error == ""
                  && t.effects == [SendRequest(f)] + (if props.hasUploadSuccess then [UploadSuccess(f)] else [])
                                  + [CloseDialog])
            && (!(o.Ok() && o.body.Parsed?) ==>
                  && t.next.selectedFile == Some(f) && t.next.error == UploadOutcome.Settle(o).message
                  && t.effects == [SendRequest(f)])
  {
    EnabledSubmitSendsRequest(s, props);
    RunPair(s, props, Submit, OutcomeArrived(o));
  }

  /** Running two events is stepping twice. */
  lemma RunPair(s: Session, props: Props, e1: Event, e2: Event)
    ensures var first := Step(s, props, e1);
            var second := Step(first.next, props, e2);
            Run(s, props, [e1, e2]) == Transition(second.next, first.effects + second.effects)
  {
    var first := Step(s, props, e1);
    assert [e1, e2][1..] == [e2];
    assert [e2][1..] == [];
    var second := Step(first.next, props, e2);
    assert Run(first.next, props, [e2]) == Transition(second.next, second.effects + []);
    assert second.effects + [] == second.effects;
  }
}

=== FILE: validation.dfy ===
/**
 The client-side file check of the upload dialog (`validateFile`): a size limit of
 100 MiB, then an exact match against four video MIME types. The first failing
 check decides the message.
 */
module Validation {
  import opened Wrappers
  import Decimal

  /** The attributes of a browser `File` the dialog looks at. */
  datatype VideoFile = VideoFile(name: string, size: nat, mimeType: string)

  datatype Verdict = Accepted | Rejected(reason: string)

  /** `MAX_FILE_SIZE`: 100 MiB in bytes. */
  const MaxFileSize: nat := 100 * 1024 * 1024

  const AllowedTypes: seq<string> := ["video/mp4", "video/webm", "video/ogg", "video/quicktime"]

  const TypeMessage: string := "Please select a valid video file (MP4, WebM, OGG, or MOV)"

  const SizeMessagePrefix: string := "File size must be less than 100MB. Your file is "

  const BytesPerMiB: nat := 1024 * 1024

  /**
   The size in MiB as `(size / (1024 * 1024)).toFixed(2)` rounds it, counted in
   hundredths: the nearest hundredth, ties going up. The division by a power of
   two is exact in floating point, so for every size a `File` can have (below
   2^53) this is the number toFixed prints.
   */
  function MiBHundredths(size: nat): nat {
    (100 * size + BytesPerMiB / 2) / BytesPerMiB
  }

  /** The message for an oversize file. */
  function SizeMessage(size: nat): string {
    SizeMessagePrefix + Decimal.Fixed2(MiBHundredths(size)) + "MB"
  }

  /** Classifies a candidate file; the size check runs before the type check. */
  function Validate(f: VideoFile): (v: Verdict)
    ensures v.Accepted? <==>
              f.size <= 104857600 &&
              f.mimeType in {"video/mp4", "video/webm", "video/ogg", "video/quicktime"}
    ensures f.size > 104857600 ==> v == Rejected(SizeMessage(f.size))
    ensures f.size <= 104857600 && v.Rejected? ==> v.reason == TypeMessage
    ensures v.Rejected? ==> v.reason != ""
  {
    if f.size > MaxFileSize then Rejected(SizeMessage(f.size))
    else if f.mimeType !in AllowedTypes then Rejected(TypeMessage)
    else Accepted
  }

  /**
   The effect `validateFile` has on the dialog's error text: it is cleared first and
   then replaced by the reason of a rejection, so it is empty exactly when the file
   is accepted. The prior text is overwritten on every path and never read; it is a
   parameter only so that callers show the update of the state they hold.
   */
  function ErrorAfterValidation(prior: string, f: VideoFile): (error: string)
    ensures error == "" <==> Validate(f).Accepted?
    ensures Validate(f).Rejected? ==> error == Validate(f).reason
  {
    match Validate(f)
    case Accepted => ""
    case Rejected(reason) => reason
  }

  /** The size figure an oversize message reports, in hundredths of a MiB, if it has the expected shape. */
  function ReportedHundredths(message: string): Option<nat> {
    if |message| >= |SizeMessagePrefix| + 2
       && message[..|SizeMessagePrefix|] == SizeMessagePrefix
       && message[|message| - 2..] == "MB"
    then Decimal.ParseFixed2(message[|SizeMessagePrefix|..|message| - 2])
    else None
  }

  /** The three parts of a framed text can be cut back out of it. */
  lemma FramedParts(prefix: string, middle: string, suffix: string)
    ensures var m := prefix + middle + suffix;
            && m[..|prefix|] == prefix
            && m[|m| - |suffix|..] == suffix
            && m[|prefix|..|m| - |suffix|] == middle
  {
  }

  /** The figure in the oversize message reads back as the hundredths it was printed from. */
  lemma ReportedHundredthsRoundTrip(h: nat)
    ensures ReportedHundredths(SizeMessagePrefix + Decimal.Fixed2(h) + "MB") == Some(h)
  {
    FramedParts(SizeMessagePrefix, Decimal.Fixed2(h), "MB");
    Decimal.Fixed2RoundTrip(h);
  }

  /** The printed hundredths are the nearest to the size in MiB, ties rounding up. */
  lemma MiBRounding(size: nat)
    ensures 100 * size < MiBHundredths(size) * BytesPerMiB + BytesPerMiB / 2
    ensures MiBHundredths(size) * BytesPerMiB <= 100 * size + BytesPerMiB / 2
  {
    var n := 100 * size + BytesPerMiB / 2;
    assert n == MiBHundredths(size) * BytesPerMiB + n % BytesPerMiB;
  }

  /**
   An oversize file is told its own size: the message carries the size in MiB
   rounded to two decimals (half a hundredth either side, ties up).
   */
  lemma OversizeMessageReportsSize(f: VideoFile)
    requires f.size > MaxFileSize
    ensures Validate(f).Rejected?
    ensures ReportedHundredths(Validate(f).reason) == Some(MiBHundredths(f.size))
    ensures 100 * f.size < MiBHundredths(f.size) * BytesPerMiB + BytesPerMiB / 2
    ensures MiBHundredths(f.size) * BytesPerMiB <= 100 * f.size + BytesPerMiB / 2
  {
    ReportedHundredthsRoundTrip(MiBHundredths(f.size));
    MiBRounding(f.size);
  }

  /** Exactly 100 MiB passes the size check; one byte more does not. */
  lemma SizeBoundary(mimeType: string)
    ensures Validate(VideoFile("a", 104857600, "video/mp4")).Accepted?
    ensures Validate(VideoFile("a", 104857601, mimeType)) == Rejected(SizeMessage(104857601))
  {
  }
}

=== FILE: wrappers.dfy ===
/** The optional value used across the model, standing for JavaScript's `null` / `undefined`. */
module Wrappers {

  datatype Option<+T> = None | Some(value: T)
}
